=== FILE: README.md ===
# events-app: the decision rules of the event, venue and RSVP pages

The events app is a Next.js client over a hosted database (tables `venues`,
`events`, `rsvp`, `rsvps`) and a hosted identity provider. Its logic lives in
the event handlers of six files: the admin-only add-event page and add-venue
form, the two RSVP components, the personal dashboard and the home listing.
This project models those handlers as pure Dafny functions over immutable
records and proves what they do:

- the guard chains of `handleAddEvent` and `handleAddVenue`: sign-in first,
  then the `"admin"` role, then the required fields. Only after all three
  pass is exactly one row appended, and the form reset;
- the two divergent RSVP handlers. `RSVP.tsx` requires four fields and writes
  `rsvps`. `RSVPForm.tsx`'s handler checks only sign-in and writes `rsvp`; its
  names and email are required only by the browser, through the inputs'
  `required` attribute. Neither looks
  for an earlier RSVP, so two submissions leave two rows;
- the dashboard. It loads the user's `rsvp` rows, the events they name and the
  venues. It splits the events into upcoming (`start > now`, soonest first)
  and past (`start <= now`, most recent first), and labels each with
  `getVenueDetails` or `"Location not found"`;
- the home listing: events in fetch order, with links `"/events/" + id` and
  `"/venues/" + location`;
- the comma-separated media field, edited with `split(",")` and shown with
  `join(",")`.

The database is the record `Domain.Tables`: four append-only sequences of the
rows inserted so far. The database's answer to an insert, and to each query,
is a parameter: `insertOk`, or the `Faults` record. A failed insert appends
nothing. Whether the add-event page's date-times parse is the parameter
`timesValid`. The signed-in user is an `Option<User>`.

The dashboard reads `rsvp`, but the RSVP component on an event's page writes
`rsvps`. `Dashboard.RsvpComponentNeverReachesDashboard` proves that nothing
that component does changes what the dashboard loads.
`Dashboard.RsvpFormReachesDashboard` proves that a successful submit of
`RSVPForm` adds its event id at the end of the ids the dashboard asks for.

Nothing in the code keeps RSVPs unique or checks an event's times or venue.
Both RSVP handlers insert unconditionally (components/RSVP.tsx:50,
components/RSVPForm.tsx:27), so `Rsvp.TwoSubmissionsTwoRows` and
`RsvpForm.ResubmitInsertsSecondRow` show two submissions leaving two rows.
`RSVP.tsx` requires the phone (components/RSVP.tsx:32), although its input's
placeholder reads "Phone (optional)" (components/RSVP.tsx:92).
`handleAddEvent` compares no times and looks up no venue
(app/add-event/page.tsx:74-92), so `AddEvent.EndBeforeStartIsAccepted`
shows an end before the start being inserted as given.

Files: `optional.dfy`, `text.dfy`, `domain.dfy`, `venue_lookup.dfy`,
`schedule.dfy`, `add_venue.dfy`, `add_event.dfy`, `rsvp.dfy`,
`rsvp_form.dfy`, `dashboard.dfy`, `home.dfy`.

## Model

| member | source | states |
|---|---|---|
| Text.Split | app/add-event/page.tsx:205 | `split(",")` always yields at least one piece, exactly one more than the number of commas, and no piece contains a comma |
| Text.JoinSplit | app/add-event/page.tsx:204-205 | for every string typed into a media input, joining its split with "," gives back the same string, so the input shows what was typed; the venue form's input (components/AddVenue.tsx:133-134) is the same code |
| Text.Join | app/add-event/page.tsx:204 | `join(",")` of no pieces is ""; otherwise its length is the pieces' total plus one per neighbouring pair, it starts with the first piece, and a comma follows that piece when there is a second |
| Text.OffsetIsPrefixLength | app/add-event/page.tsx:204 | piece k of `join(",")` starts after the total length of the pieces before it plus one separator for each of them |
| Text.JoinPlacesPieces | app/add-event/page.tsx:204 | in the joined text every piece sits at its offset (the earlier pieces plus one separator each), and a comma stands just before every piece but the first |
| Text.SplitJoin | components/AddVenue.tsx:133-134 | a non-empty list of comma-free URLs survives `join(",")` followed by `split(",")` unchanged |
| Text.EmptyMediaDoesNotSurvive | app/add-event/page.tsx:38 | the initial media list `[]` displays as "" and "" edits back to `[""]`, not `[]` |
| VenueLookup.FindVenue | app/dashboard/page.tsx:80 | `venues.find` is absent exactly when no venue has the id, and otherwise returns the venue at the first position holding that id |
| VenueLookup.VenueDetails | app/dashboard/page.tsx:79-84 | `getVenueDetails` gives `"name, city, state, country"` of the first venue with the id, and `"Location not found"` when no venue has it; app/page.tsx:63-68 is the same function |
| VenueLookup.DetailsStableUnderLaterVenues | app/page.tsx:63-68 | once a venue with the id is present, venues listed after it, including later duplicates of the id, never change the location text |
| Schedule.StartingAfter | app/dashboard/page.tsx:88-90 | the upcoming filter keeps every occurrence of each event starting after `now`, and nothing else |
| Schedule.StartedBy | app/dashboard/page.tsx:91-93 | the past filter keeps every occurrence of each event starting at or before `now`, and nothing else |
| Schedule.SortByStart | app/dashboard/page.tsx:96-103 | the comparator sort returns a permutation of its input, sorted by start time in the requested direction |
| Schedule.Upcoming | app/dashboard/page.tsx:88-99 | `upcomingEvents` after its sort is ascending by start time and a permutation of the events starting after `now` |
| Schedule.Past | app/dashboard/page.tsx:91-103 | `pastEvents` after its sort is descending by start time and a permutation of the events starting at or before `now` |
| Schedule.UpcomingIsExact | app/dashboard/page.tsx:88-99 | an event is in the sorted upcoming list iff it was fetched and starts after `now` |
| Schedule.PastIsExact | app/dashboard/page.tsx:91-103 | an event is in the sorted past list iff it was fetched and started at or before `now` |
| Schedule.PartitionIsExact | app/dashboard/page.tsx:87-93 | upcoming and past are disjoint, and together hold every fetched event exactly as often as it was fetched |
| Schedule.EventMovesToPast | app/dashboard/page.tsx:87-93 | an event is upcoming while `now` is before its start and past once `now` reaches it |
| AddVenue.HandleAddVenue | components/AddVenue.tsx:24-76 | no user means NotSignedIn; else a non-admin role means NotAdmin; else an empty name, address, city, state or description means MissingFields. A rejection or failed insert leaves tables and form unchanged and skips `onSuccess`. Otherwise exactly one venue carrying the seven fields is appended, no other table changes, the form resets to empty, and `onSuccess` runs iff it was given |
| AddVenue.CountryIsOptional | components/AddVenue.tsx:39-42 | an admin's form with the five required fields and an empty country is inserted, country "" included |
| AddVenue.SecondClickAfterSuccessInsertsNothing | components/AddVenue.tsx:60-71 | a click made after a successful insert has returned finds the reset form and is rejected, so it adds no second venue |
| AddEvent.InitialForm | app/add-event/page.tsx:33-39 | the initial form has empty title, description and times, no media, no venue, and today's date |
| AddEvent.LocalDateTime | app/add-event/page.tsx:87-92 | the timestamp string is the day, then `T`, then the time, then `:00` |
| AddEvent.HandleAddEvent | app/add-event/page.tsx:59-122 | no user means NotSignedIn; else a non-admin role means NotAdmin; else a missing date, start time, end time, title, description or venue means MissingFields; else a date-time that `new Date` rejects makes `toISOString` throw before the insert (Threw); else the store's refusal means InsertFailed. Every outcome but a successful insert changes neither the tables nor the form. Otherwise exactly one event is appended, no other table changes, and the form returns to its initial state with today's date |
| AddEvent.Row | app/add-event/page.tsx:94-106 | the inserted row has the form's title, description and media, `location` equal to the selected venue id, and both times starting with the same `yyyy-MM-ddT` prefix |
| AddEvent.InsertedRowMatchesForm | app/add-event/page.tsx:86-106 | the row appended by a successful insert is the form's fields, with `day + "T" + time + ":00"` for both times |
| AddEvent.EndBeforeStartIsAccepted | app/add-event/page.tsx:86-92 | an event ending at 18:00 and starting at 20:00 on the same day is inserted as given; no check relates the two times |
| AddEvent.SecondClickAfterSuccessInsertsNothing | app/add-event/page.tsx:108-121 | a click made after a successful insert has returned finds the reset form and is rejected, so it adds no second event |
| AddEvent.SelectedVenue | app/add-event/page.tsx:57 | `selectedVenue` is absent with no selection; otherwise it is absent exactly when no venue has the id, and else it is the first venue with it |
| Rsvp.Initial | components/RSVP.tsx:16-23 | fields start from the user's first name, last name, primary email and first phone (or ""), with updates on and editing off |
| Rsvp.HandleRsvp | components/RSVP.tsx:25-63 | no user means NotSignedIn with nothing changed. Else an empty first name, last name, email or phone means MissingFields: `isEditing` is set, the fields are kept and nothing is inserted. Otherwise the insert is attempted, and on success exactly one row is appended to `rsvps` with the user's id, the event id and the fields; after any attempt the fields clear and updates go back on |
| Rsvp.TwoSubmissionsTwoRows | components/RSVP.tsx:50 | two complete submissions by one user for one event add two rows for that pair; nothing updates the earlier row |
| Rsvp.ValidationFailureKeepsTyping | components/RSVP.tsx:32-36 | a validation failure keeps what was typed and opens the form for editing |
| RsvpForm.Initial | components/RSVPForm.tsx:11-17 | names and phone start empty, email is the user's primary email or "", and updates start off |
| RsvpForm.ResetFor | components/RSVPForm.tsx:44-50 | the form after success equals the initial form for that signed-in user |
| RsvpForm.HandleSubmit | components/RSVPForm.tsx:19-52 | no user means NotSignedIn and nothing inserted. With a user the insert is attempted whatever the fields hold, and succeeds iff the database accepts it. On success one row with the user's id, the event id and the fields is appended to `rsvp` and the form resets; on failure nothing changes |
| RsvpForm.ResubmitInsertsSecondRow | components/RSVPForm.tsx:27-37 | after a successful submit, submitting the form again for the same event, with whatever was typed into it, inserts a second row for the same user and event; both rows carry their own submission's fields |
| Dashboard.RowsOfUser | app/dashboard/page.tsx:40-43 | the RSVP query returns each of the user's rows as often as stored, and no other row |
| Dashboard.EventIds | app/dashboard/page.tsx:51 | the requested ids are the rows' `event_id` values, one per row, in row order |
| Dashboard.EventsWithIds | app/dashboard/page.tsx:52-55 | the event query returns each stored event whose id was asked for, as often as stored, and no other event |
| Dashboard.LoadDashboard | app/dashboard/page.tsx:36-73 | with no user or a failed RSVP query, the state is unchanged and nothing more is asked. Otherwise the requested ids are the `event_id`s of the user's rows in order. Events are replaced unless their query fails, and venues are replaced unless theirs fails, each independently |
| Dashboard.LoadedEventsWereRsvpd | app/dashboard/page.tsx:40-60 | every event the dashboard loads is a stored event whose id appears in one of the user's own RSVP rows |
| Dashboard.SectionsAddUp | app/dashboard/page.tsx:87-93 | the two sections together have as many events as were loaded |
| Dashboard.SectionFacts | app/dashboard/page.tsx:87-103 | every upcoming event starts after `now` and every past one at or before it; upcoming is ascending and past descending |
| Dashboard.Cards | app/dashboard/page.tsx:112-127 | one card per event, in order, each labelled with that event's `getVenueDetails` |
| Dashboard.Render | app/dashboard/page.tsx:86-149 | the two sections' cards together show every loaded event exactly as often as it was loaded. Upcoming cards start after `now`, in ascending order; past cards start at or before `now`, in descending order. Every card's location text is `getVenueDetails` of its event's venue id |
| Dashboard.RsvpComponentNeverReachesDashboard | components/RSVP.tsx:50 | whatever the event page's RSVP component does, the dashboard (which reads `rsvp`, not `rsvps`) loads exactly what it loaded before |
| Dashboard.RsvpFormReachesDashboard | components/RSVPForm.tsx:27 | a successful RSVP-form submission adds its event id at the end of the ids the user's dashboard asks for |
| Home.LoadHome | app/page.tsx:37-57 | a failed event query leaves the events as they were, and the venue query still runs; each list is replaced by its query's rows unless that query fails |
| Home.VenuesLoadDespiteEventFailure | app/page.tsx:42-56 | whether or not the event query fails, the venues load the same, and a successful venue query replaces them |
| Home.CardOf | app/page.tsx:75-99 | a card shows the event's title, description and start; its event link is `/events/` followed by exactly the id, its venue link `/venues/` followed by exactly the location, and its location text is `getVenueDetails` |
| Home.Listing | app/page.tsx:75 | one card per fetched event, in fetch order, with none filtered or reordered |
| Home.EventLinksAreDistinct | app/page.tsx:79 | events with different ids get different links |

## Left out

- The hosted database and identity provider. They are parameters: an optional user, the insert's success flag, and the rows each query returns or a failure flag. Generated ids, `created_at`, and the ordering of query results are left to the database. Results are taken in table order.
- React state hooks, `useEffect` scheduling, async timing, toasts, alerts and all JSX rendering other than the card contents.
- Date handling. `date-fns` `format`, `new Date(...)`, `toISOString` and `toLocaleString` are foreign, time-zone-dependent conversions. The picked day is modelled as the already formatted `yyyy-MM-dd` string. Inserted times are the local strings before `toISOString`. Stored events carry integer instants.
- AddEvent.HandleAddEvent: whether `new Date` accepts `${day}T${time}:00` is the parameter `timesValid`, not computed from the strings, because JavaScript's date parsing is foreign. The source throws at `toISOString` (app/add-event/page.tsx:87-92) when the string does not parse, for example a start time of "9am", so nothing is inserted and the form is kept; the model's Threw outcome covers that case. The `type="time"` inputs (app/add-event/page.tsx:164-179) only produce "" or "HH:mm", for which the string parses.
- Schedule.StartingAfter: an unparseable `start_time` gives `NaN`. Such an event would fall in neither section. It is not modelled, because stored times are integers here.
- The browser's own form validation is not modelled. In RSVPForm.tsx the first-name, last-name and email inputs are `required` (components/RSVPForm.tsx:65,77,87), so the browser blocks a submit while they are empty. `RsvpForm.HandleSubmit` models the handler alone, which accepts any field values.
- Clicks made while an insert is still pending are not modelled. Neither submit button is ever disabled (components/AddVenue.tsx:138, app/add-event/page.tsx:210). A second click before the first insert returns still sees the filled form, passes every guard and inserts a duplicate. The model runs one handler to completion before the next starts.
- Schedule.SortByStart: stability is not proved. `Array.prototype.sort` is stable, and the insertion sort here also keeps equal start times in input order, but only sortedness and permutation are stated.
- The event id is a string throughout. `app/page.tsx` and `RSVPForm.tsx` type it as a number, which the link template and the insert turn into its decimal text.
- `publicMetadata.role` is any JSON value in the source. Here it is an optional string, and only the string "admin" passes.
- The description textarea of the add-venue form displays `name` (components/AddVenue.tsx:93). This is a display slip that does not affect the handler.
- components/AuthButtons.tsx (a sign-in toggle) and the venue and event detail pages are not part of this model.

=== FILE: add_event.dfy ===
/**
 * The add-event page: `handleAddEvent` checks sign-in, then the admin role,
 * then six required fields, builds the two timestamps from one date, and
 * inserts one row into `events`.
 */
module AddEvent {
  import opened Optional
  import opened Text
  import opened Domain
  import VenueLookup

  /**
   * The page's state. `date` is the picked calendar day already written as
   * `yyyy-MM-dd`, or absent when the picker was cleared; `venueId` is
   * `selectedVenueId`, absent while nothing is selected.
   */
  datatype EventForm = EventForm(
    title: string,
    description: string,
    date: Option<string>,
    startTime: string,
    endTime: string,
    media: seq<string>,
    venueId: Option<string>)

  /** The form as first rendered and as reset after success: every field empty, the date `today`. */
  function InitialForm(today: string): (f: EventForm)
    ensures f.date == Some(today) && f.venueId.None? && f.media == []
    ensures !Filled(f.title) && !Filled(f.description) && !Filled(f.startTime) && !Filled(f.endTime)
  {
    EventForm("", "", Some(today), "", "", [], None)
  }

  /** Date, start time, end time, title, description and venue are all required. */
  predicate RequiredFilled(f: EventForm) {
    && f.date.Some?
    && Filled(f.startTime) && Filled(f.endTime)
    && Filled(f.title) && Filled(f.description)
    && f.venueId.Some? && Filled(f.venueId.value)
  }

  /** `${day}T${time}:00`, the local date-time string given to `new Date`. */
  function LocalDateTime(day: string, time: string): (s: string)
    ensures |s| == |day| + 1 + |time| + 3
    ensures s[..|day|] == day && s[|day|] == 'T' && s[|day| + 1..|day| + 1 + |time|] == time
    ensures s[|day| + 1 + |time|..] == ":00"
  {
    day + "T" + time + ":00"
  }

  /** What one click on "Add Event" leaves behind. */
  datatype Step = Step(outcome: Outcome, form: EventForm, tables: Tables)

  /**
   * `handleAddEvent`. `timesValid` says whether `new Date` accepts both
   * `${day}T${time}:00` strings; when it does not, `toISOString` throws and
   * the handler ends before the insert. `insertOk` is the database's answer
   * to the insert; `today` is `new Date()` at reset time, as a formatted day.
   */
  function HandleAddEvent(user: Option<User>, form: EventForm, tables: Tables, timesValid: bool, insertOk: bool, today: string): (r: Step)
    ensures r.outcome == Rejected(NotSignedIn) <==> user.None?
    ensures r.outcome == Rejected(NotAdmin) <==> user.Some? && !IsAdmin(user.value)
    ensures r.outcome == Rejected(MissingFields) <==> user.Some? && IsAdmin(user.value) && !RequiredFilled(form)
    ensures r.outcome == Threw <==> user.Some? && IsAdmin(user.value) && RequiredFilled(form) && !timesValid
    ensures r.outcome == InsertFailed <==> user.Some? && IsAdmin(user.value) && RequiredFilled(form) && timesValid && !insertOk
    ensures r.outcome == Inserted <==> user.Some? && IsAdmin(user.value) && RequiredFilled(form) && timesValid && insertOk
    ensures r.outcome != Inserted ==> r.tables == tables && r.form == form
    ensures r.outcome == Inserted ==>
      && r.tables.venues == tables.venues && r.tables.rsvp == tables.rsvp && r.tables.rsvps == tables.rsvps
      && |r.tables.events| == |tables.events| + 1
      && r.tables.events[..|tables.events|] == tables.events
      && r.form == InitialForm(today)
  {
    if user.None? then Step(Rejected(NotSignedIn), form, tables)
    else if !IsAdmin(user.value) then Step(Rejected(NotAdmin), form, tables)
    else if !RequiredFilled(form) then Step(Rejected(MissingFields), form, tables)
    else if !timesValid then Step(Threw, form, tables)
    else if !insertOk then Step(InsertFailed, form, tables)
    else Step(Inserted, InitialForm(today), tables.(events := tables.events + [Row(form)]))
  }

  /** The row `handleAddEvent` inserts for a complete form. */
  function Row(form: EventForm): (e: NewEvent)
    requires RequiredFilled(form)
    ensures e.title == form.title && e.description == form.description && e.media == form.media
    ensures e.location == form.venueId.value
    ensures |e.startTime| > |form.date.value| && |e.endTime| > |form.date.value|
    ensures e.startTime[..|form.date.value| + 1] == e.endTime[..|form.date.value| + 1] == form.date.value + "T"
  {
    var day := form.date.value;
    var start := LocalDateTime(day, form.startTime);
    var end := LocalDateTime(day, form.endTime);
    assert start[..|day| + 1] == day + "T" == end[..|day| + 1];
    NewEvent(form.title, form.description, start, end, form.media, form.venueId.value)
  }

  /** The inserted row is the one built from the submitted form, and both times use the picked day. */
  lemma InsertedRowMatchesForm(u: User, form: EventForm, tables: Tables, today: string)
    requires HandleAddEvent(Some(u), form, tables, true, true, today).outcome == Inserted
    ensures var e := HandleAddEvent(Some(u), form, tables, true, true, today).tables.events[|tables.events|];
            && e.title == form.title && e.description == form.description && e.media == form.media
            && e.location == form.venueId.value
            && e.startTime == form.date.value + "T" + form.startTime + ":00"
            && e.endTime == form.date.value + "T" + form.endTime + ":00"
  {
  }

  /** No check relates the two times: an end before the start is inserted as given. */
  lemma EndBeforeStartIsAccepted(u: User, tables: Tables)
    requires IsAdmin(u)
    ensures var form := EventForm("Kickoff", "Opening night", Some("2025-06-01"), "20:00", "18:00", [], Some("V1"));
            var r := HandleAddEvent(Some(u), form, tables, true, true, "2025-06-02");
            && r.outcome == Inserted
            && r.tables.events[|tables.events|].startTime == "2025-06-01T20:00:00"
            && r.tables.events[|tables.events|].endTime == "2025-06-01T18:00:00"
  {
  }

  /** A click made after a successful insert has returned finds the reset form and inserts nothing. */
  lemma SecondClickAfterSuccessInsertsNothing(u: User, form: EventForm, tables: Tables, valid2: bool, ok2: bool, today: string)
    requires HandleAddEvent(Some(u), form, tables, true, true, today).outcome == Inserted
    ensures var first := HandleAddEvent(Some(u), form, tables, true, true, today);
            var second := HandleAddEvent(Some(u), first.form, first.tables, valid2, ok2, today);
            second.outcome == Rejected(MissingFields) && second.tables == first.tables
  {
  }

  /**
   * `selectedVenue`: the first fetched venue whose id is the selected id;
   * nothing while no id is selected.
   */
  function SelectedVenue(venues: seq<StoredVenue>, selected: Option<string>): (r: Option<StoredVenue>)
    ensures selected.None? ==> r.None?
    ensures selected.Some? ==>
      && (r.None? <==> forall i :: 0 <= i < |venues| ==> venues[i].id != selected.value)
      && (r.Some? ==> exists i :: VenueLookup.FirstWithId(venues, selected.value, i) && venues[i] == r.value)
  {
    match selected
    case None => None
    case Some(id) => VenueLookup.FindVenue(venues, id)
  }
}

=== FILE: add_venue.dfy ===
/**
 * The add-venue form: `handleAddVenue` checks sign-in, then the admin role,
 * then the required fields, and only then inserts one row into `venues`.
 */
module AddVenue {
  import opened Optional
  import opened Text
  import opened Domain

  /** The form's state; `media` is the list the comma-separated input edits. */
  datatype VenueForm = VenueForm(
    name: string,
    description: string,
    address: string,
    city: string,
    state: string,
    country: string,
    media: seq<string>)

  /** The form as first rendered and as reset after a successful insert. */
  const EmptyForm: VenueForm := VenueForm("", "", "", "", "", "", [])

  /** Name, address, city, state and description are required; country and media are not. */
  predicate RequiredFilled(f: VenueForm) {
    Filled(f.name) && Filled(f.address) && Filled(f.city) && Filled(f.state) && Filled(f.description)
  }

  /** The inserted row holds the seven form fields unchanged. */
  predicate Carries(v: Venue, f: VenueForm) {
    && v.name == f.name && v.description == f.description && v.address == f.address
    && v.city == f.city && v.state == f.state && v.country == f.country && v.media == f.media
  }

  /** What one click on "Add Venue" leaves behind. */
  datatype Step = Step(outcome: Outcome, form: VenueForm, tables: Tables, calledOnSuccess: bool)

  /**
   * `handleAddVenue`. `insertOk` is the database's answer to the insert;
   * `hasOnSuccess` says whether the parent passed an `onSuccess` callback.
   */
  function HandleAddVenue(user: Option<User>, form: VenueForm, tables: Tables, insertOk: bool, hasOnSuccess: bool): (r: Step)
    ensures r.outcome == Rejected(NotSignedIn) <==> user.None?
    ensures r.outcome == Rejected(NotAdmin) <==> user.Some? && !IsAdmin(user.value)
    ensures r.outcome == Rejected(MissingFields) <==> user.Some? && IsAdmin(user.value) && !RequiredFilled(form)
    ensures r.outcome == Inserted <==> user.Some? && IsAdmin(user.value) && RequiredFilled(form) && insertOk
    ensures r.outcome != Inserted ==> r.tables == tables && r.form == form && !r.calledOnSuccess
    ensures r.outcome == Inserted ==>
      && r.tables.events == tables.events && r.tables.rsvp == tables.rsvp && r.tables.rsvps == tables.rsvps
      && |r.tables.venues| == |tables.venues| + 1
      && r.tables.venues[..|tables.venues|] == tables.venues
      && Carries(r.tables.venues[|tables.venues|], form)
      && r.form == EmptyForm
      && r.calledOnSuccess == hasOnSuccess
  {
    if user.None? then Step(Rejected(NotSignedIn), form, tables, false)
    else if !IsAdmin(user.value) then Step(Rejected(NotAdmin), form, tables, false)
    else if !RequiredFilled(form) then Step(Rejected(MissingFields), form, tables, false)
    else if !insertOk then Step(InsertFailed, form, tables, false)
    else
      var row := Venue(form.name, form.description, form.address, form.city, form.state, form.country, form.media);
      Step(Inserted, EmptyForm, tables.(venues := tables.venues + [row]), hasOnSuccess)
  }

  /** Country may be left empty: an admin with the five required fields still inserts. */
  lemma CountryIsOptional(u: User, form: VenueForm, tables: Tables)
    requires IsAdmin(u) && RequiredFilled(form) && form.country == ""
    ensures HandleAddVenue(Some(u), form, tables, true, false).outcome == Inserted
    ensures HandleAddVenue(Some(u), form, tables, true, false).tables.venues[|tables.venues|].country == ""
  {
  }

  /**
   * A click made after a successful insert has returned finds the reset
   * form and is rejected, so it inserts no second venue.
   */
  lemma SecondClickAfterSuccessInsertsNothing(u: User, form: VenueForm, tables: Tables, ok2: bool, cb: bool)
    requires HandleAddVenue(Some(u), form, tables, true, cb).outcome == Inserted
    ensures var first := HandleAddVenue(Some(u), form, tables, true, cb);
            var second := HandleAddVenue(Some(u), first.form, first.tables, ok2, cb);
            second.outcome == Rejected(MissingFields) && second.tables == first.tables
  {
  }
}

=== FILE: dashboard.dfy ===
/**
 * The personal dashboard: `fetchData` loads the signed-in user's rows from
 * `rsvp`, then the events they name, then all venues; the page splits the
 * events into upcoming and past and labels each with its venue.
 */
module Dashboard {
  import opened Optional
  import opened Domain
  import opened VenueLookup
  import opened Schedule
  import Rsvp
  import RsvpForm

  /** Which of the three queries the database answers with an error. */
  datatype Faults = Faults(rsvpFails: bool, eventsFails: bool, venuesFails: bool)

  /** The page's state: `rsvpEvents` and `venues`. */
  datatype DashboardState = DashboardState(rsvpEvents: seq<StoredEvent>, venues: seq<StoredVenue>)

  /** The state after one `fetchData`, and the event ids it asked for, if it got that far. */
  datatype Load = Load(state: DashboardState, requested: Option<seq<string>>)

  /** `.from("rsvp").eq("user_id", userId)`: the user's rows in table order. */
  function RowsOfUser(rows: seq<RsvpRow>, userId: string): (r: seq<RsvpRow>)
    ensures forall x :: multiset(r)[x] == if x.userId == userId then multiset(rows)[x] else 0
  {
    if |rows| == 0 then []
    else
      assert rows == rows[..|rows| - 1] + [rows[|rows| - 1]];
      var init := RowsOfUser(rows[..|rows| - 1], userId);
      if rows[|rows| - 1].userId == userId then init + [rows[|rows| - 1]] else init
  }

  /** `rsvpData.map((rsvp) => rsvp.event_id)`. */
  function EventIds(rows: seq<RsvpRow>): (ids: seq<string>)
    ensures |ids| == |rows|
    ensures forall i :: 0 <= i < |rows| ==> ids[i] == rows[i].eventId
  {
    if |rows| == 0 then [] else EventIds(rows[..|rows| - 1]) + [rows[|rows| - 1].eventId]
  }

  /** `.from("events").in("id", ids)`: the events whose id was asked for, each as often as stored. */
  function EventsWithIds(events: seq<StoredEvent>, ids: seq<string>): (r: seq<StoredEvent>)
    ensures forall e :: multiset(r)[e] == if e.id in ids then multiset(events)[e] else 0
  {
    if |events| == 0 then []
    else
      assert events == [events[0]] + events[1..];
      var rest := EventsWithIds(events[1..], ids);
      if events[0].id in ids then [events[0]] + rest else rest
  }

  /**
   * `fetchData` against tables holding `rsvpRows`, `events` and `venues`.
   * Without a user nothing is asked; a failed RSVP query stops before the
   * other two; a failed event query still lets the venues load.
   */
  function LoadDashboard(user: Option<User>, state: DashboardState, rsvpRows: seq<RsvpRow>,
                         events: seq<StoredEvent>, venues: seq<StoredVenue>, faults: Faults): (r: Load)
    ensures user.None? || faults.rsvpFails ==> r == Load(state, None)
    ensures user.Some? && !faults.rsvpFails ==>
      && r.requested.Some?
      && var mine := RowsOfUser(rsvpRows, user.value.id);
         && |r.requested.value| == |mine|
         && (forall i :: 0 <= i < |mine| ==> r.requested.value[i] == mine[i].eventId)
         && r.state.rsvpEvents == (if faults.eventsFails then state.rsvpEvents else EventsWithIds(events, r.requested.value))
         && r.state.venues == (if faults.venuesFails then state.venues else venues)
  {
    if user.None? || faults.rsvpFails then Load(state, None)
    else
      var ids := EventIds(RowsOfUser(rsvpRows, user.value.id));
      var rsvpEvents := if faults.eventsFails then state.rsvpEvents else EventsWithIds(events, ids);
      var venues' := if faults.venuesFails then state.venues else venues;
      Load(DashboardState(rsvpEvents, venues'), Some(ids))
  }

  /** Every event shown was RSVP'd by the user: its id appears among their rows. */
  lemma LoadedEventsWereRsvpd(u: User, state: DashboardState, rsvpRows: seq<RsvpRow>,
                              events: seq<StoredEvent>, venues: seq<StoredVenue>, faults: Faults)
    requires !faults.rsvpFails && !faults.eventsFails
    ensures forall e :: e in LoadDashboard(Some(u), state, rsvpRows, events, venues, faults).state.rsvpEvents ==>
      e in events && exists row :: row in rsvpRows && row.userId == u.id && row.eventId == e.id
  {
    var mine := RowsOfUser(rsvpRows, u.id);
    var ids := EventIds(mine);
    forall e | e in LoadDashboard(Some(u), state, rsvpRows, events, venues, faults).state.rsvpEvents
      ensures e in events && exists row :: row in rsvpRows && row.userId == u.id && row.eventId == e.id
    {
      assert multiset(EventsWithIds(events, ids))[e] > 0;
      var i :| 0 <= i < |ids| && ids[i] == e.id;
      assert mine[i] in multiset(mine);
    }
  }

  /** One event card: the event and its location text. */
  datatype Card = Card(event: StoredEvent, location: string)

  /** The cards for `events`, in order, each labelled by `getVenueDetails`. */
  function Cards(events: seq<StoredEvent>, venues: seq<StoredVenue>): (r: seq<Card>)
    ensures |r| == |events|
    ensures forall i :: 0 <= i < |events| ==> r[i].event == events[i] && r[i].location == VenueDetails(venues, events[i].location)
  {
    if |events| == 0 then [] else [Card(events[0], VenueDetails(venues, events[0].location))] + Cards(events[1..], venues)
  }

  /** The events the cards of a section show, in order. */
  function EventsOf(cards: seq<Card>): (events: seq<StoredEvent>)
    ensures |events| == |cards|
    ensures forall i :: 0 <= i < |cards| ==> events[i] == cards[i].event
  {
    seq(|cards|, i requires 0 <= i < |cards| => cards[i].event)
  }

  /** The cards of a section show exactly that section's events, in order. */
  lemma CardsShow(events: seq<StoredEvent>, venues: seq<StoredVenue>)
    ensures EventsOf(Cards(events, venues)) == events
  {
  }

  /** The two rendered sections. */
  datatype View = View(upcoming: seq<Card>, past: seq<Card>)

  /** Cards in a section whose events are all sorted the same way keep that order. */
  lemma CardsSorted(d: Direction, events: seq<StoredEvent>, venues: seq<StoredVenue>)
    requires SortedBy(d, events)
    ensures forall i, j :: 0 <= i < j < |Cards(events, venues)| ==>
      InOrder(d, Cards(events, venues)[i].event.startTime, Cards(events, venues)[j].event.startTime)
  {
  }

  /** The upcoming and past lists together are as long as the fetched list. */
  lemma SectionsAddUp(events: seq<StoredEvent>, now: int)
    ensures |Upcoming(events, now)| + |Past(events, now)| == |events|
  {
    PartitionIsExact(events, now);
    assert |multiset(Upcoming(events, now))| + |multiset(Past(events, now))| == |multiset(events)|;
  }

  /** Every upcoming event starts after `now`, every past one at or before it, each list sorted its way. */
  lemma SectionFacts(events: seq<StoredEvent>, now: int)
    ensures forall i :: 0 <= i < |Upcoming(events, now)| ==> Upcoming(events, now)[i].startTime > now
    ensures forall i :: 0 <= i < |Past(events, now)| ==> Past(events, now)[i].startTime <= now
    ensures SortedBy(Ascending, Upcoming(events, now)) && SortedBy(Descending, Past(events, now))
  {
  }

  /** What the page renders from its state at time `now`. */
  function Render(state: DashboardState, now: int): (v: View)
    ensures |v.upcoming| + |v.past| == |state.rsvpEvents|
    ensures forall i :: 0 <= i < |v.upcoming| ==> v.upcoming[i].event.startTime > now
    ensures forall i :: 0 <= i < |v.past| ==> v.past[i].event.startTime <= now
    ensures forall i, j :: 0 <= i < j < |v.upcoming| ==> v.upcoming[i].event.startTime <= v.upcoming[j].event.startTime
    ensures forall i, j :: 0 <= i < j < |v.past| ==> v.past[i].event.startTime >= v.past[j].event.startTime
    ensures multiset(EventsOf(v.upcoming)) + multiset(EventsOf(v.past)) == multiset(state.rsvpEvents)
    ensures forall i :: 0 <= i < |v.upcoming| ==> v.upcoming[i].location == VenueDetails(state.venues, v.upcoming[i].event.location)
    ensures forall i :: 0 <= i < |v.past| ==> v.past[i].location == VenueDetails(state.venues, v.past[i].event.location)
  {
    var up := Upcoming(state.rsvpEvents, now);
    var past := Past(state.rsvpEvents, now);
    SectionsAddUp(state.rsvpEvents, now);
    SectionFacts(state.rsvpEvents, now);
    PartitionIsExact(state.rsvpEvents, now);
    CardsSorted(Ascending, up, state.venues);
    CardsSorted(Descending, past, state.venues);
    CardsShow(up, state.venues);
    CardsShow(past, state.venues);
    View(Cards(up, state.venues), Cards(past, state.venues))
  }

  /**
   * An RSVP made on an event's page goes to `rsvps`, while the dashboard
   * reads `rsvp`: whatever that component does, the dashboard loads the same.
   */
  lemma RsvpComponentNeverReachesDashboard(user: Option<User>, eventId: string, rs: Rsvp.RsvpState, tables: Tables,
                                           insertOk: bool, viewer: Option<User>, state: DashboardState,
                                           events: seq<StoredEvent>, venues: seq<StoredVenue>, faults: Faults)
    ensures var after := Rsvp.HandleRsvp(user, eventId, rs, tables, insertOk).tables;
            LoadDashboard(viewer, state, after.rsvp, events, venues, faults)
              == LoadDashboard(viewer, state, tables.rsvp, events, venues, faults)
  {
  }

  /** A successful submit of the RSVP form adds its event id at the end of the ids the dashboard asks for. */
  lemma RsvpFormReachesDashboard(u: User, eventId: string, form: Rsvp.ContactForm, tables: Tables,
                                 state: DashboardState, events: seq<StoredEvent>, venues: seq<StoredVenue>, faults: Faults)
    requires !faults.rsvpFails
    ensures var after := RsvpForm.HandleSubmit(Some(u), eventId, form, tables, true).tables;
            var before := LoadDashboard(Some(u), state, tables.rsvp, events, venues, faults).requested;
            LoadDashboard(Some(u), state, after.rsvp, events, venues, faults).requested == Some(before.value + [eventId])
  {
  }
}

=== FILE: domain.dfy ===
/**
 * The records the pages exchange with the hosted database and the identity
 * provider. Insert payloads carry no id (the database generates it); rows
 * read back carry one. The database itself is a record of append-only
 * tables holding the payloads inserted so far.
 */
module Domain {
  import opened Optional

  /** The signed-in user as the identity provider reports it; `role` is `publicMetadata.role`. */
  datatype User = User(
    id: string,
    firstName: Option<string>,
    lastName: Option<string>,
    primaryEmail: Option<string>,
    phoneNumbers: seq<string>,
    role: Option<string>)

  /** The only role allowed to write to the catalogue. */
  const AdminRole: string := "admin"

  /** `user.publicMetadata.role === "admin"`. */
  predicate IsAdmin(u: User) {
    u.role == Some(AdminRole)
  }

  /** A venue as inserted into `venues`. */
  datatype Venue = Venue(
    name: string,
    description: string,
    address: string,
    city: string,
    state: string,
    country: string,
    media: seq<string>)

  /** A venue as read back from `venues`. */
  datatype StoredVenue = StoredVenue(id: string, venue: Venue)

  /**
   * An event as inserted into `events`. The times are the local date-time
   * strings `yyyy-MM-ddTHH:mm:00` the form builds, before conversion to an
   * absolute instant.
   */
  datatype NewEvent = NewEvent(
    title: string,
    description: string,
    startTime: string,
    endTime: string,
    media: seq<string>,
    location: string)

  /** An event as read back from `events`, its times as absolute instants. */
  datatype StoredEvent = StoredEvent(
    id: string,
    title: string,
    description: string,
    startTime: int,
    endTime: int,
    location: string)

  /** One RSVP row, the same shape in both the `rsvp` and the `rsvps` table. */
  datatype RsvpRow = RsvpRow(
    firstName: string,
    lastName: string,
    email: string,
    phone: string,
    futureUpdates: bool,
    userId: string,
    eventId: string)

  /**
   * The database as the write handlers see it: every table only grows.
   * `rsvp` is written by the RSVP form and read by the dashboard; `rsvps`
   * is written by the RSVP component of the event page.
   */
  datatype Tables = Tables(
    venues: seq<Venue>,
    events: seq<NewEvent>,
    rsvp: seq<RsvpRow>,
    rsvps: seq<RsvpRow>)

  /** Why a handler stopped before touching the database. */
  datatype Rejection = NotSignedIn | NotAdmin | MissingFields

  /**
   * What a submit handler did: stopped at a guard, threw before reaching the
   * store, asked the store and was refused, or inserted.
   */
  datatype Outcome = Rejected(reason: Rejection) | Threw | InsertFailed | Inserted
}

=== FILE: home.dfy ===
/**
 * The home page: all events in the order fetched, each with a link to its
 * page, its venue's location text, and a link to the venue's page.
 */
module Home {
  import opened Domain
  import opened VenueLookup

  /** The page's state: `events` and `venues`. */
  datatype HomeState = HomeState(events: seq<StoredEvent>, venues: seq<StoredVenue>)

  /**
   * `fetchData` against tables holding `events` and `venues`: each failed
   * query leaves its list as it was, and an event failure does not stop the
   * venue query.
   */
  function LoadHome(state: HomeState, events: seq<StoredEvent>, venues: seq<StoredVenue>,
                    eventsFail: bool, venuesFail: bool): (r: HomeState)
    ensures eventsFail ==> r.events == state.events
    ensures !eventsFail ==> r.events == events
    ensures venuesFail ==> r.venues == state.venues
    ensures !venuesFail ==> r.venues == venues
  {
    HomeState(if eventsFail then state.events else events, if venuesFail then state.venues else venues)
  }

  /** A failed event query does not stop the venue query: the venues load the same either way. */
  lemma VenuesLoadDespiteEventFailure(state: HomeState, events: seq<StoredEvent>, venues: seq<StoredVenue>, venuesFail: bool)
    ensures LoadHome(state, events, venues, true, venuesFail).venues == LoadHome(state, events, venues, false, venuesFail).venues
    ensures LoadHome(state, events, venues, true, false).venues == venues
  {
  }

  const EventsPath: string := "/events/"
  const VenuesPath: string := "/venues/"

  /** One rendered card. */
  datatype HomeCard = HomeCard(
    title: string,
    description: string,
    startTime: int,
    eventHref: string,
    venueHref: string,
    location: string)

  /** The card of one event. */
  function CardOf(e: StoredEvent, venues: seq<StoredVenue>): (c: HomeCard)
    ensures c.title == e.title && c.description == e.description && c.startTime == e.startTime
    ensures |c.eventHref| == |EventsPath| + |e.id|
    ensures c.eventHref[..|EventsPath|] == EventsPath && c.eventHref[|EventsPath|..] == e.id
    ensures |c.venueHref| == |VenuesPath| + |e.location|
    ensures c.venueHref[..|VenuesPath|] == VenuesPath && c.venueHref[|VenuesPath|..] == e.location
    ensures c.location == VenueDetails(venues, e.location)
  {
    HomeCard(e.title, e.description, e.startTime, EventsPath + e.id, VenuesPath + e.location,
             VenueDetails(venues, e.location))
  }

  /** `events.map(...)`: one card per event, in fetch order, none dropped or reordered. */
  function Listing(state: HomeState): (cards: seq<HomeCard>)
    ensures |cards| == |state.events|
    ensures forall i :: 0 <= i < |cards| ==> cards[i] == CardOf(state.events[i], state.venues)
    decreases |state.events|
  {
    if |state.events| == 0 then []
    else [CardOf(state.events[0], state.venues)] + Listing(state.(events := state.events[1..]))
  }

  /** The event link names exactly one event: different ids give different links. */
  lemma EventLinksAreDistinct(state: HomeState, i: int, j: int)
    requires 0 <= i < |state.events| && 0 <= j < |state.events|
    requires state.events[i].id != state.events[j].id
    ensures Listing(state)[i].eventHref != Listing(state)[j].eventHref
  {
  }
}

=== FILE: optional.dfy ===
/**
 * A value that may be missing. The pages meet this wherever JavaScript
 * hands back `undefined` or `null`: a signed-out user, an unset name, no
 * selected venue, a `find` that matched nothing.
 */
module Optional {

  datatype Option<+T> = None | Some(value: T) {

    /** The held value, falling back to `fallback` when nothing is held (`x ?? fallback`). */
    function GetOr(fallback: T): (r: T)
      ensures Some? ==> r == value
      ensures None? ==> r == fallback
    {
      if Some? then value else fallback
    }
  }
}

=== FILE: rsvp.dfy ===
/**
 * The RSVP component shown on an event's page: `handleRSVP` checks sign-in
 * and four contact fields, then inserts into `rsvps` with no check for an
 * earlier RSVP by the same user to the same event.
 */
module Rsvp {
  import opened Optional
  import opened Text
  import opened Domain

  /** The contact fields and the future-updates checkbox, shared with the RSVP form. */
  datatype ContactForm = ContactForm(
    firstName: string,
    lastName: string,
    email: string,
    phone: string,
    futureUpdates: bool)

  /** The component's state: the contact fields and whether the form was reopened for editing. */
  datatype RsvpState = RsvpState(form: ContactForm, isEditing: bool)

  /** The fields after any insert attempt: empty, with updates requested again. */
  const Cleared: ContactForm := ContactForm("", "", "", "", true)

  /** The first phone number on the account, or "" when it has none. */
  function FirstPhone(u: User): (p: string)
    ensures |u.phoneNumbers| > 0 ==> p == u.phoneNumbers[0]
    ensures |u.phoneNumbers| == 0 ==> p == ""
  {
    if |u.phoneNumbers| > 0 then u.phoneNumbers[0] else ""
  }

  /** The first render: fields prefilled from the account where it has them, updates on. */
  function Initial(user: Option<User>): (s: RsvpState)
    ensures s.form.futureUpdates && !s.isEditing
    ensures user.None? ==> s.form == Cleared
    ensures user.Some? ==>
      && s.form.firstName == OrEmpty(user.value.firstName)
      && s.form.lastName == OrEmpty(user.value.lastName)
      && s.form.email == OrEmpty(user.value.primaryEmail)
      && s.form.phone == FirstPhone(user.value)
  {
    match user
    case None => RsvpState(ContactForm("", "", "", "", true), false)
    case Some(u) =>
      RsvpState(ContactForm(OrEmpty(u.firstName), OrEmpty(u.lastName), OrEmpty(u.primaryEmail), FirstPhone(u), true), false)
  }

  /** All four contact fields are required here, the phone included. */
  predicate Complete(f: ContactForm) {
    Filled(f.firstName) && Filled(f.lastName) && Filled(f.email) && Filled(f.phone)
  }

  /** The row sent for `user` and `eventId`. */
  predicate RowFor(row: RsvpRow, f: ContactForm, userId: string, eventId: string) {
    && row.firstName == f.firstName && row.lastName == f.lastName
    && row.email == f.email && row.phone == f.phone
    && row.futureUpdates == f.futureUpdates
    && row.userId == userId && row.eventId == eventId
  }

  /** What one click on "RSVP" leaves behind. */
  datatype Step = Step(outcome: Outcome, state: RsvpState, tables: Tables)

  /** `handleRSVP` for the event `eventId`; `insertOk` is the database's answer. */
  function HandleRsvp(user: Option<User>, eventId: string, state: RsvpState, tables: Tables, insertOk: bool): (r: Step)
    ensures r.outcome == Rejected(NotSignedIn) <==> user.None?
    ensures r.outcome == Rejected(MissingFields) <==> user.Some? && !Complete(state.form)
    ensures r.outcome == Inserted <==> user.Some? && Complete(state.form) && insertOk
    ensures r.outcome != Rejected(NotAdmin)
    ensures user.None? ==> r.state == state && r.tables == tables
    ensures r.outcome == Rejected(MissingFields) ==> r.state == RsvpState(state.form, true) && r.tables == tables
    ensures !r.outcome.Rejected? ==> r.state == RsvpState(Cleared, state.isEditing)
    ensures r.outcome == InsertFailed ==> r.tables == tables
    ensures r.outcome == Inserted ==>
      && r.tables == tables.(rsvps := r.tables.rsvps)
      && |r.tables.rsvps| == |tables.rsvps| + 1
      && r.tables.rsvps[..|tables.rsvps|] == tables.rsvps
      && RowFor(r.tables.rsvps[|tables.rsvps|], state.form, user.value.id, eventId)
  {
    match user
    case None => Step(Rejected(NotSignedIn), state, tables)
    case Some(u) =>
      if !Complete(state.form) then Step(Rejected(MissingFields), state.(isEditing := true), tables)
      else
        var f := state.form;
        var row := RsvpRow(f.firstName, f.lastName, f.email, f.phone, f.futureUpdates, u.id, eventId);
        var tables' := if insertOk then tables.(rsvps := tables.rsvps + [row]) else tables;
        Step(if insertOk then Inserted else InsertFailed, RsvpState(Cleared, state.isEditing), tables')
  }

  /** Number of rows in `rows` recording `userId` for `eventId`. */
  function RowsFor(rows: seq<RsvpRow>, userId: string, eventId: string): (n: nat) {
    if |rows| == 0 then 0
    else RowsFor(rows[..|rows| - 1], userId, eventId)
         + (if rows[|rows| - 1].userId == userId && rows[|rows| - 1].eventId == eventId then 1 else 0)
  }

  /**
   * Nothing makes a second RSVP update the first: two complete submissions
   * by the same user for the same event leave two more rows for that pair.
   */
  lemma TwoSubmissionsTwoRows(u: User, eventId: string, s1: RsvpState, f2: ContactForm, tables: Tables)
    requires Complete(s1.form) && Complete(f2)
    ensures var first := HandleRsvp(Some(u), eventId, s1, tables, true);
            var second := HandleRsvp(Some(u), eventId, first.state.(form := f2), first.tables, true);
            && first.outcome == Inserted && second.outcome == Inserted
            && |second.tables.rsvps| == |tables.rsvps| + 2
            && RowsFor(second.tables.rsvps, u.id, eventId) == RowsFor(tables.rsvps, u.id, eventId) + 2
  {
  }

  /** The fields are not cleared when validation fails, only when the insert was attempted. */
  lemma ValidationFailureKeepsTyping(u: User, eventId: string, state: RsvpState, tables: Tables, ok: bool)
    requires !Complete(state.form)
    ensures HandleRsvp(Some(u), eventId, state, tables, ok).state.form == state.form
    ensures HandleRsvp(Some(u), eventId, state, tables, ok).state.isEditing
  {
  }
}

=== FILE: rsvp_form.dfy ===
/**
 * The standalone RSVP form: `handleSubmit` checks only that someone is
 * signed in, then inserts the form as it stands into `rsvp`.
 */
module RsvpForm {
  import opened Optional
  import opened Text
  import opened Domain
  import Rsvp

  /** The first render: names and phone empty, email from the account, updates off. */
  function Initial(user: Option<User>): (f: Rsvp.ContactForm)
    ensures !f.futureUpdates
    ensures f.firstName == "" && f.lastName == "" && f.phone == ""
    ensures user.None? ==> f.email == ""
    ensures user.Some? ==> f.email == OrEmpty(user.value.primaryEmail)
  {
    Rsvp.ContactForm("", "", if user.Some? then OrEmpty(user.value.primaryEmail) else "", "", false)
  }

  /** The form after a successful insert for the signed-in user `u`. */
  function ResetFor(u: User): (f: Rsvp.ContactForm)
    ensures f == Initial(Some(u))
  {
    Rsvp.ContactForm("", "", OrEmpty(u.primaryEmail), "", false)
  }

  /** What one submit leaves behind. */
  datatype Step = Step(outcome: Outcome, form: Rsvp.ContactForm, tables: Tables)

  /** `handleSubmit` for the event `eventId`; `insertOk` is the database's answer. */
  function HandleSubmit(user: Option<User>, eventId: string, form: Rsvp.ContactForm, tables: Tables, insertOk: bool): (r: Step)
    ensures r.outcome == Rejected(NotSignedIn) <==> user.None?
    ensures r.outcome == Inserted <==> user.Some? && insertOk
    ensures r.outcome != Rejected(MissingFields) && r.outcome != Rejected(NotAdmin)
    ensures r.outcome != Inserted ==> r.form == form && r.tables == tables
    ensures r.outcome == Inserted ==>
      && r.form == Initial(user)
      && r.tables == tables.(rsvp := r.tables.rsvp)
      && |r.tables.rsvp| == |tables.rsvp| + 1
      && r.tables.rsvp[..|tables.rsvp|] == tables.rsvp
      && Rsvp.RowFor(r.tables.rsvp[|tables.rsvp|], form, user.value.id, eventId)
  {
    match user
    case None => Step(Rejected(NotSignedIn), form, tables)
    case Some(u) =>
      if !insertOk then Step(InsertFailed, form, tables)
      else
        var row := RsvpRow(form.firstName, form.lastName, form.email, form.phone, form.futureUpdates, u.id, eventId);
        Step(Inserted, ResetFor(u), tables.(rsvp := tables.rsvp + [row]))
  }

  /**
   * Nothing makes a second RSVP update the first: after a successful submit,
   * whatever the user types into the reset form and submits for the same
   * event is inserted as a second row for the same user and event.
   */
  lemma ResubmitInsertsSecondRow(u: User, eventId: string, form: Rsvp.ContactForm, again: Rsvp.ContactForm, tables: Tables)
    ensures var first := HandleSubmit(Some(u), eventId, form, tables, true);
            var second := HandleSubmit(Some(u), eventId, again, first.tables, true);
            && first.outcome == Inserted && second.outcome == Inserted
            && |second.tables.rsvp| == |tables.rsvp| + 2
            && Rsvp.RowsFor(second.tables.rsvp, u.id, eventId) == Rsvp.RowsFor(tables.rsvp, u.id, eventId) + 2
            && Rsvp.RowFor(second.tables.rsvp[|tables.rsvp|], form, u.id, eventId)
            && Rsvp.RowFor(second.tables.rsvp[|tables.rsvp| + 1], again, u.id, eventId)
  {
  }
}

=== FILE: schedule.dfy ===
/**
 * The dashboard's temporal split of the RSVP'd events: upcoming ones
 * (start strictly after now) soonest first, past ones (start at or before
 * now) most recent first.
 */
module Schedule {
  import opened Domain

  /** Which way a list is ordered by start time. */
  datatype Direction = Ascending | Descending

  /** `a` may come before `b` in direction `d` (the sort comparator is non-positive). */
  predicate InOrder(d: Direction, a: int, b: int) {
    match d
    case Ascending => a <= b
    case Descending => a >= b
  }

  predicate SortedBy(d: Direction, s: seq<StoredEvent>) {
    forall i, j :: 0 <= i < j < |s| ==> InOrder(d, s[i].startTime, s[j].startTime)
  }

  /** `events.filter((event) => new Date(event.start_time) > now)`: each such occurrence, and nothing else. */
  function StartingAfter(events: seq<StoredEvent>, now: int): (r: seq<StoredEvent>)
    ensures forall e :: multiset(r)[e] == if e.startTime > now then multiset(events)[e] else 0
  {
    if |events| == 0 then []
    else
      assert events == [events[0]] + events[1..];
      var rest := StartingAfter(events[1..], now);
      if events[0].startTime > now then [events[0]] + rest else rest
  }

  /** `events.filter((event) => new Date(event.start_time) <= now)`: each such occurrence, and nothing else. */
  function StartedBy(events: seq<StoredEvent>, now: int): (r: seq<StoredEvent>)
    ensures forall e :: multiset(r)[e] == if e.startTime <= now then multiset(events)[e] else 0
  {
    if |events| == 0 then []
    else
      assert events == [events[0]] + events[1..];
      var rest := StartedBy(events[1..], now);
      if events[0].startTime <= now then [events[0]] + rest else rest
  }

  /** Putting in front of a sorted list an element that may precede all of it keeps it sorted. */
  lemma PrependSorted(d: Direction, x: StoredEvent, t: seq<StoredEvent>)
    requires SortedBy(d, t)
    requires forall y :: y in t ==> InOrder(d, x.startTime, y.startTime)
    ensures SortedBy(d, [x] + t)
  {
  }

  /** An element that may precede the head of a sorted list may precede all of it. */
  lemma PrecedesHead(d: Direction, x: StoredEvent, s: seq<StoredEvent>)
    requires SortedBy(d, s) && |s| > 0
    requires InOrder(d, x.startTime, s[0].startTime)
    ensures forall y :: y in s ==> InOrder(d, x.startTime, y.startTime)
  {
  }

  /** The head of a sorted list may precede everything of the tail and `e` it did not come after. */
  lemma HeadPrecedesInserted(d: Direction, e: StoredEvent, s: seq<StoredEvent>, tail: seq<StoredEvent>)
    requires SortedBy(d, s) && |s| > 0
    requires !InOrder(d, e.startTime, s[0].startTime)
    requires multiset(tail) == multiset{e} + multiset(s[1..])
    ensures forall y :: y in tail ==> InOrder(d, s[0].startTime, y.startTime)
  {
    forall y | y in tail ensures InOrder(d, s[0].startTime, y.startTime) {
      assert y in multiset(tail);
      if y != e {
        assert y in multiset(s[1..]);
        var j :| 0 <= j < |s[1..]| && s[1..][j] == y;
        assert s[j + 1] == y;
      }
    }
  }

  /** Places `e` into the sorted `s`, before the first element it may precede. */
  function Insert(d: Direction, e: StoredEvent, s: seq<StoredEvent>): (r: seq<StoredEvent>)
    requires SortedBy(d, s)
    ensures SortedBy(d, r)
    ensures multiset(r) == multiset{e} + multiset(s)
  {
    if |s| == 0 then [e]
    else if InOrder(d, e.startTime, s[0].startTime) then
      PrecedesHead(d, e, s);
      PrependSorted(d, e, s);
      [e] + s
    else
      assert s == [s[0]] + s[1..];
      var tail := Insert(d, e, s[1..]);
      HeadPrecedesInserted(d, e, s, tail);
      PrependSorted(d, s[0], tail);
      [s[0]] + tail
  }

  /**
   * `Array.prototype.sort` with the comparator `a - b` (ascending) or
   * `b - a` (descending) on start times: the same events, in order.
   */
  function SortByStart(d: Direction, s: seq<StoredEvent>): (r: seq<StoredEvent>)
    ensures SortedBy(d, r)
    ensures multiset(r) == multiset(s)
  {
    if |s| == 0 then []
    else
      assert s == [s[0]] + s[1..];
      Insert(d, s[0], SortByStart(d, s[1..]))
  }

  /** `upcomingEvents` after its sort. */
  function Upcoming(events: seq<StoredEvent>, now: int): (r: seq<StoredEvent>)
    ensures SortedBy(Ascending, r)
    ensures multiset(r) == multiset(StartingAfter(events, now))
  {
    SortByStart(Ascending, StartingAfter(events, now))
  }

  /** `pastEvents` after its sort. */
  function Past(events: seq<StoredEvent>, now: int): (r: seq<StoredEvent>)
    ensures SortedBy(Descending, r)
    ensures multiset(r) == multiset(StartedBy(events, now))
  {
    SortByStart(Descending, StartedBy(events, now))
  }

  /** Upcoming holds an event exactly when it was fetched and starts after `now`. */
  lemma UpcomingIsExact(events: seq<StoredEvent>, now: int)
    ensures forall e :: e in Upcoming(events, now) <==> e in events && e.startTime > now
  {
  }

  /** Past holds an event exactly when it was fetched and started at or before `now`. */
  lemma PastIsExact(events: seq<StoredEvent>, now: int)
    ensures forall e :: e in Past(events, now) <==> e in events && e.startTime <= now
  {
  }

  /**
   * The two lists are disjoint and together hold every RSVP'd event exactly
   * as often as it was fetched.
   */
  lemma PartitionIsExact(events: seq<StoredEvent>, now: int)
    ensures multiset(Upcoming(events, now)) + multiset(Past(events, now)) == multiset(events)
    ensures forall e :: !(e in Upcoming(events, now) && e in Past(events, now))
  {
    UpcomingIsExact(events, now);
    PastIsExact(events, now);
    var up, past := StartingAfter(events, now), StartedBy(events, now);
    forall e ensures (multiset(up) + multiset(past))[e] == multiset(events)[e] {
      assert multiset(up)[e] == if e.startTime > now then multiset(events)[e] else 0;
      assert multiset(past)[e] == if e.startTime <= now then multiset(events)[e] else 0;
    }
  }

  /** Moving the clock past an event's start moves it from upcoming to past. */
  lemma EventMovesToPast(events: seq<StoredEvent>, e: StoredEvent, before: int, after: int)
    requires e in events
    requires before < e.startTime <= after
    ensures e in Upcoming(events, before) && e !in Past(events, before)
    ensures e !in Upcoming(events, after) && e in Past(events, after)
  {
  }
}

=== FILE: text.dfy ===
/**
 * The string helpers the forms rely on: JavaScript truthiness of strings,
 * `x || ""`, and the comma-separated media field, which is edited through
 * `value.split(",")` and displayed through `media.join(",")`.
 */
module Text {
  import opened Optional

  /** The media separator. */
  const Comma: char := ','

  /** A string is truthy in JavaScript exactly when it is not empty. */
  predicate Filled(s: string) {
    s != ""
  }

  /** `o || ""` for an optional string: the value when present and non-empty, else "". */
  function OrEmpty(o: Option<string>): (s: string)
    ensures o.None? ==> s == ""
    ensures o.Some? ==> s == o.value
  {
    o.GetOr("")
  }

  /** Number of separators in `s`. */
  function Commas(s: string): (n: nat)
  {
    if |s| == 0 then 0 else (if s[0] == Comma then 1 else 0) + Commas(s[1..])
  }

  /**
   * `s.split(",")`: the maximal comma-free pieces of `s`, in order. The
   * empty string splits into one empty piece, never into no pieces.
   */
  function Split(s: string): (parts: seq<string>)
    ensures |parts| == Commas(s) + 1
    ensures forall i :: 0 <= i < |parts| ==> Comma !in parts[i]
    decreases |s|
  {
    if |s| == 0 then [""]
    else
      var rest := Split(s[1..]);
      if s[0] == Comma then [""] + rest
      else [[s[0]] + rest[0]] + rest[1..]
  }

  /** Number of characters in all the pieces together. */
  function TotalLength(parts: seq<string>): (n: nat)
    ensures |parts| > 0 ==> n >= |parts[0]|
  {
    if |parts| == 0 then 0 else |parts[0]| + TotalLength(parts[1..])
  }

  /** Where piece `k` starts in the joined text: each earlier piece and its separator come first. */
  function Offset(parts: seq<string>, k: nat): (n: nat)
    requires k <= |parts|
    ensures k > 0 ==> n >= |parts[k - 1]| + 1
  {
    if k == 0 then 0 else |parts[0]| + 1 + Offset(parts[1..], k - 1)
  }

  /** The offset of piece `k` is the length of the pieces before it plus one separator for each. */
  lemma {:induction false} OffsetIsPrefixLength(parts: seq<string>, k: nat)
    requires k <= |parts|
    ensures Offset(parts, k) == TotalLength(parts[..k]) + k
  {
    if k > 0 {
      OffsetIsPrefixLength(parts[1..], k - 1);
      assert parts[..k][1..] == parts[1..][..k - 1];
    }
  }

  /** `parts.join(",")`: the pieces with one separator between neighbours. */
  function Join(parts: seq<string>): (s: string)
    ensures |parts| == 0 ==> s == ""
    ensures |parts| > 0 ==> |s| == TotalLength(parts) + |parts| - 1
    ensures |parts| > 0 ==> |parts[0]| <= |s| && s[..|parts[0]|] == parts[0]
    ensures |parts| > 1 ==> s[|parts[0]|] == Comma
  {
    if |parts| == 0 then ""
    else if |parts| == 1 then parts[0]
    else parts[0] + [Comma] + Join(parts[1..])
  }

  /** A slice behind a prefix is the same slice of what follows the prefix. */
  lemma SliceBehind(a: string, b: string, i: nat, j: nat)
    requires i <= j <= |b|
    ensures (a + b)[|a| + i..|a| + j] == b[i..j]
  {
  }

  /** Piece `k` sits at its offset in the joined text, right after a separator unless it is the first. */
  lemma {:induction false} JoinPlacesPiece(parts: seq<string>, k: nat)
    requires k < |parts|
    ensures Offset(parts, k) + |parts[k]| <= |Join(parts)|
    ensures Join(parts)[Offset(parts, k)..Offset(parts, k) + |parts[k]|] == parts[k]
    ensures k > 0 ==> Join(parts)[Offset(parts, k) - 1] == Comma
  {
    if k > 0 {
      var tail := parts[1..];
      JoinPlacesPiece(tail, k - 1);
      var j := Join(tail);
      var o := Offset(tail, k - 1);
      var head := parts[0] + [Comma];
      assert Join(parts) == head + j;
      assert Offset(parts, k) == |head| + o;
      assert parts[k] == tail[k - 1];
      SliceBehind(head, j, o, o + |parts[k]|);
      if k > 1 {
        assert (head + j)[|head| + o - 1] == j[o - 1];
      }
    }
  }

  /**
   * The joined text holds every piece at its offset, and a separator just
   * before every piece but the first.
   */
  lemma JoinPlacesPieces(parts: seq<string>)
    ensures forall k :: 0 <= k < |parts| ==>
      && Offset(parts, k) + |parts[k]| <= |Join(parts)|
      && Join(parts)[Offset(parts, k)..Offset(parts, k) + |parts[k]|] == parts[k]
    ensures forall k :: 0 < k < |parts| ==> Join(parts)[Offset(parts, k) - 1] == Comma
  {
    forall k | 0 <= k < |parts|
      ensures Offset(parts, k) + |parts[k]| <= |Join(parts)|
      ensures Join(parts)[Offset(parts, k)..Offset(parts, k) + |parts[k]|] == parts[k]
      ensures k > 0 ==> Join(parts)[Offset(parts, k) - 1] == Comma
    {
      JoinPlacesPiece(parts, k);
    }
  }

  /** Displaying what was just typed shows exactly what was typed. */
  lemma {:induction false} JoinSplit(s: string)
    ensures Join(Split(s)) == s
    decreases |s|
  {
    if |s| > 0 {
      var rest := Split(s[1..]);
      JoinSplit(s[1..]);
      if s[0] == Comma {
        assert Split(s) == [""] + rest;
        assert ([""] + rest)[1..] == rest;
        assert Join(Split(s)) == "" + [Comma] + Join(rest);
        assert s == [s[0]] + s[1..];
      } else {
        var head := [s[0]] + rest[0];
        assert Split(s) == [head] + rest[1..];
        if |rest| == 1 {
          assert Join(Split(s)) == head;
          assert Join(rest) == rest[0];
        } else {
          assert ([head] + rest[1..])[1..] == rest[1..];
          assert Join(Split(s)) == head + [Comma] + Join(rest[1..]);
          assert Join(rest) == rest[0] + [Comma] + Join(rest[1..]);
        }
        assert s == [s[0]] + s[1..];
      }
    }
  }

  /** Splitting a comma-free prefix glued to `t` extends the first piece of `t`. */
  lemma {:induction false} SplitCommaFreePrefix(p: string, t: string)
    requires Comma !in p
    ensures Split(p + t) == [p + Split(t)[0]] + Split(t)[1..]
    decreases |p|
  {
    if |p| > 0 {
      SplitCommaFreePrefix(p[1..], t);
      assert (p + t)[1..] == p[1..] + t;
      assert (p + t)[0] == p[0] && p[0] != Comma;
      assert [p[0]] + (p[1..] + Split(t)[0]) == p + Split(t)[0];
    } else {
      assert p + t == t;
      assert p + Split(t)[0] == Split(t)[0];
    }
  }

  /**
   * The other direction of the round trip: a non-empty list of comma-free
   * pieces survives display followed by editing. The empty list does not,
   * see `EmptyMediaDoesNotSurvive`.
   */
  lemma {:induction false} SplitJoin(parts: seq<string>)
    requires |parts| >= 1
    requires forall i :: 0 <= i < |parts| ==> Comma !in parts[i]
    ensures Split(Join(parts)) == parts
    decreases |parts|
  {
    if |parts| == 1 {
      SplitCommaFreePrefix(parts[0], "");
      assert parts[0] + "" == parts[0];
    } else {
      var tail := Join(parts[1..]);
      SplitJoin(parts[1..]);
      assert Join(parts) == parts[0] + ([Comma] + tail);
      SplitCommaFreePrefix(parts[0], [Comma] + tail);
      assert ([Comma] + tail)[1..] == tail;
      assert Split([Comma] + tail) == [""] + parts[1..];
      assert parts[0] + "" == parts[0];
    }
  }

  /** An untouched media list `[]` shows as "", and "" edits back to `[""]`, not `[]`. */
  lemma EmptyMediaDoesNotSurvive()
    ensures Join([]) == ""
    ensures Split("") == [""]
    ensures Split(Join([])) != []
  {
  }
}

=== FILE: venue_lookup.dfy ===
/**
 * `venues.find((venue) => venue.id === venueId)` and the location text built
 * from it, shared by the home page, the dashboard and the add-event page.
 */
module VenueLookup {
  import opened Optional
  import opened Domain

  /** Shown when no venue has the event's location id. */
  const LocationNotFound: string := "Location not found"

  /** `i` is the position of the first venue whose id is `id`. */
  predicate FirstWithId(venues: seq<StoredVenue>, id: string, i: int) {
    && 0 <= i < |venues|
    && venues[i].id == id
    && forall j :: 0 <= j < i ==> venues[j].id != id
  }

  /** The first venue with the given id, as `Array.prototype.find` returns it. */
  function FindVenue(venues: seq<StoredVenue>, id: string): (r: Option<StoredVenue>)
    ensures r.None? <==> forall i :: 0 <= i < |venues| ==> venues[i].id != id
    ensures r.Some? ==> exists i :: FirstWithId(venues, id, i) && venues[i] == r.value
  {
    if |venues| == 0 then None
    else if venues[0].id == id then Some(venues[0])
    else
      var r := FindVenue(venues[1..], id);
      assert r.Some? ==> exists i :: FirstWithId(venues[1..], id, i) && venues[1..][i] == r.value;
      assert forall i :: FirstWithId(venues[1..], id, i) ==> FirstWithId(venues, id, i + 1);
      r
  }

  /** `${name}, ${city}, ${state}, ${country}`. */
  function Describe(v: Venue): (text: string) {
    v.name + ", " + v.city + ", " + v.state + ", " + v.country
  }

  /** `getVenueDetails`: the first matching venue's description, or the sentinel. */
  function VenueDetails(venues: seq<StoredVenue>, id: string): (r: string)
    ensures (forall i :: 0 <= i < |venues| ==> venues[i].id != id) ==> r == LocationNotFound
    ensures forall i :: FirstWithId(venues, id, i) ==> r == Describe(venues[i].venue)
  {
    match FindVenue(venues, id)
    case None => LocationNotFound
    case Some(v) => Describe(v.venue)
  }

  /**
   * Once a venue with the id is present, venues fetched after it (including
   * later duplicates of the id) never change the location text.
   */
  lemma DetailsStableUnderLaterVenues(venues: seq<StoredVenue>, more: seq<StoredVenue>, id: string, i: int)
    requires FirstWithId(venues, id, i)
    ensures VenueDetails(venues + more, id) == VenueDetails(venues, id)
  {
    assert FirstWithId(venues + more, id, i);
  }
}
